=== FILE: README.md ===
# Shopping-cart controller, modelled in Dafny

The original is a small browser page split into API client, Model, View and
Controller. The Controller keeps a local `State` container (the inventory
and the cart) in step with a REST backend. Each click handler looks up the
clicked id in local state, decides which request to send, sends it, then
re-fetches the changed collection and assigns it to the state. Each
assignment fires the single subscribed callback, which re-renders the page.

This project models that decision logic and the `State` container:

- `wrappers.dfy`: `Option`, the result of a lookup that can find nothing.
- `items.dfy` (module `Items`): inventory and cart records. Also the
  first-match lookups the handlers perform (`Array.prototype.find`) and the
  well-formedness predicates (unique ids, non-negative figures).
- `api.dfy` (module `Api`): the abstract backend, the requests the API client
  issues, the effect each request is assumed to have, and the checkout
  composition (one DELETE per fetched cart item).
- `model.dfy` (module `Model`): the `State` container as an immutable value.
  It holds the two fields and the registered callback. It also records every
  callback invocation with the fields that invocation observes, so "fires
  exactly once per assignment, after the field is replaced" can be stated.
- `controller.dfy` (module `Controller`): `init`, the four handlers and the
  click routing. Each handler is one atomic step over a `World`, meaning the
  client's state plus the backend, and it reports the requests it issued.
- `session.dfy` (module `Session`): invariants of whole sessions, i.e.
  start-up followed by any series of clicks.
- `scenarios.dfy` (module `Scenarios`): worked examples on concrete data.

The network is a parameter. A `Network` names the set of requests that fail.
A failing request has no effect on the backend. It ends its promise chain at
the logging `catch`, so the client state is left as it was. A reliable
network (`Network({})`) delivers everything.

The backend's behaviour is an assumption of the model. The source never
shows the server. The model assumes a generic REST resource server:
- PATCH sets the named field of the resource with that id.
- POST appends the body.
- DELETE removes the resource with that id.
- GET changes nothing.

Three points where the code does something other than a reader might
expect. The model follows the code in each:
- `init` starts the fetches, but it calls `subscribe` synchronously before
  any of them can resolve (index.js:166-185). So the subscriber is registered
  before the first assignment, not after the second.
- Checkout does not re-fetch the cart. It assigns `[]` locally once every
  delete has succeeded (index.js:266-273).
- `handleDelete` uses the row id as a string (index.js:255), while the
  inventory handlers parse it as an integer (index.js:210). The model uses
  one integer id type for both.

## Model

| member | source | states |
|---|---|---|
| Items.FindInventory | react-evalution-starting-code-main/index.js:211 | the lookup finds nothing exactly when no inventory item has the id; otherwise it returns the first item with that id |
| Items.FindCart | react-evalution-starting-code-main/index.js:230 | the lookup finds nothing exactly when no cart item has the id; otherwise it returns the first cart item with that id |
| Items.FindInventoryUnique | react-evalution-starting-code-main/index.js:211 | on an inventory with unique ids, the lookup returns the one item carrying the id |
| Api.SetQuantity | react-evalution-starting-code-main/index.js:13-21 | the assumed PATCH /inventory/{id} effect: items with that id get the new quantity; every other item, and every id, is unchanged |
| Api.SetAmount | react-evalution-starting-code-main/index.js:35-44 | the assumed PATCH /cart/{id} effect: entries with that id get the new amount; every other entry, and every id, is unchanged |
| Api.RemoveId | react-evalution-starting-code-main/index.js:46-54 | the assumed DELETE /cart/{id} effect: exactly the items with other ids survive; the result is the input when the id is absent |
| Api.Apply | react-evalution-starting-code-main/index.js:3-54 | cart requests never change the inventory; inventory requests never change the cart; GETs change nothing |
| Api.DeleteRequests | react-evalution-starting-code-main/index.js:58-60 | checkout issues one DELETE per fetched cart item, in order, naming that item's id |
| Api.DeleteAll | react-evalution-starting-code-main/index.js:59 | the concurrent deletes of a checkout never change the inventory; which cart items survive them is stated by Api.DeleteAllSurvivors |
| Api.DeleteAllSurvivors | react-evalution-starting-code-main/index.js:56-61 | after the checkout deletes, an item remains exactly when it was in the cart and every delete naming its id failed |
| Api.CheckoutDeletesEverything | react-evalution-starting-code-main/index.js:56-61 | when every delete succeeds, the backend cart ends empty and the inventory is untouched |
| Api.RemoveIdCommutes | react-evalution-starting-code-main/index.js:59 | any two deletes give the same cart in either order |
| Api.RemoveIdKeepsUnique | react-evalution-starting-code-main/index.js:46-54 | deleting from a cart with unique ids leaves unique ids |
| Model.NewState | react-evalution-starting-code-main/index.js:80-83 | a new container has empty inventory and cart, no callback and no notifications |
| Model.Subscribe | react-evalution-starting-code-main/index.js:101-103 | subscribing replaces the registered callback and leaves the fields and history alone |
| Model.Notify | react-evalution-starting-code-main/index.js:94 | invoking `#onChange` throws exactly when none is registered; otherwise it records one invocation of the registered callback, which sees the current fields |
| Model.SetCart | react-evalution-starting-code-main/index.js:92-95 | the cart is replaced wholesale, the inventory and the callback are untouched, and the callback fires once and sees the new cart; with no callback the cart is still replaced and the setter throws |
| Model.SetInventory | react-evalution-starting-code-main/index.js:96-99 | the inventory is replaced wholesale, the cart and the callback are untouched, and the callback fires once and sees the new inventory; with no callback it throws after the replacement |
| Model.LastSubscriberWins | react-evalution-starting-code-main/index.js:101-103 | after two subscriptions an assignment fires exactly one notification, which goes to the second callback |
| Model.OneNotificationPerAssignment | react-evalution-starting-code-main/index.js:92-99 | once a callback is registered, any series of assignments fires it exactly once per assignment, keeps the earlier history, and fires nothing else |
| Model.NotificationsSeeAssignedValues | react-evalution-starting-code-main/index.js:92-99 | the i-th notification of a series sees the i-th assigned value, and the last one sees the final fields, so each fires after its replacement |
| Controller.MutateThenRefetch | react-evalution-starting-code-main/index.js:215-220 | the mutation is issued first; if it fails nothing else happens and the world is unchanged; once it is delivered the backend holds its effect and the re-fetch is always issued; a failed re-fetch leaves the client as it was; when both succeed the client holds the fresh collection, and the history gains exactly one notification, to the registered callback, seeing the new fields |
| Controller.NewQuantity | react-evalution-starting-code-main/index.js:214 | the new quantity is never negative, at least quantity + change, and equal to either 0 or quantity + change (that is, the maximum of the two) |
| Controller.HandleUpdateAmount | react-evalution-starting-code-main/index.js:208-222 | an unknown id issues nothing and changes nothing; a known id PATCHes the clamped quantity and then re-fetches the inventory; a delivered PATCH sets exactly that quantity on the backend; a failed PATCH changes nothing, a failed re-fetch leaves the client as it was, and when both succeed the client holds the backend inventory; the cart is never touched |
| Controller.HandleAddToCart | react-evalution-starting-code-main/index.js:224-251 | an unknown id does nothing; an id already in the cart PATCHes its amount to amount + current stock, and the backend cart becomes that amount; an absent id with stock POSTs a copy of the item carrying the whole stock, and the backend cart gains exactly that entry at its end; an absent id with no stock does nothing; a failed mutation changes nothing, a failed re-fetch leaves the client as it was; only cart requests are issued and the inventory is never touched |
| Controller.HandleDelete | react-evalution-starting-code-main/index.js:253-264 | the DELETE is issued with no lookup; a failed DELETE changes nothing; a delivered one removes exactly the items with that id from the backend and is followed by the re-fetch; a failed re-fetch leaves the client as it was; when both succeed the client holds the backend cart, which lacks the id |
| Controller.HandleCheckout | react-evalution-starting-code-main/index.js:266-273 | fetches the backend cart and issues one DELETE per fetched item; a failed fetch issues nothing more and changes nothing; the backend then loses exactly the items whose deletes succeeded; if any delete fails the client is left as it was; if all succeed both carts end empty, and the history gains exactly one notification, to the registered callback, seeing the inventory and an empty cart |
| Controller.Dispatch | react-evalution-starting-code-main/index.js:187-206 | the + and - buttons PATCH the clicked item's quantity with change +1 and -1 and never touch the cart; add-to-cart first PATCHes or POSTs the clicked id in the cart, delete first sends DELETE for the clicked id, checkout first fetches the cart; these three never touch the inventory and issue only cart requests; no click changes the subscriber |
| Controller.Init | react-evalution-starting-code-main/index.js:166-185 | the callback is registered before any assignment, so every notification goes to it; a failed inventory fetch leaves the state empty with no notification; a failed cart fetch leaves the inventory loaded, the cart empty and one notification; when both succeed the client mirrors the backend after exactly two notifications, the second seeing both collections |
| Session.DispatchKeepsNonNegative | react-evalution-starting-code-main/index.js:208-273 | whatever fails, no click makes a quantity or cart amount negative on either side |
| Session.DispatchKeepsConsistent | react-evalution-starting-code-main/index.js:208-273 | with every request delivered, a click keeps the client an exact mirror of a backend whose ids are unique |
| Session.DispatchNotifiesAtMostOnce | react-evalution-starting-code-main/index.js:187-273 | a click keeps the subscriber; it either leaves the notification history as it was or appends exactly one notification, to the registered callback, seeing the fields the click leaves; it appends one whenever it issued requests and every one of its own requests was delivered |
| Session.RunKeepsConsistent | react-evalution-starting-code-main/index.js:187-273 | any series of delivered clicks preserves the mirror-and-unique-ids invariant |
| Session.RunKeepsNonNegative | react-evalution-starting-code-main/index.js:187-273 | any series of clicks under any failures preserves non-negative figures |
| Session.SessionStaysConsistent | react-evalution-starting-code-main/index.js:166-273 | start-up and then any series of delivered clicks keep the client mirroring a backend with unique ids |
| Session.StaleCartDuplicatesId | react-evalution-starting-code-main/index.js:230-248 | from a consistent world, two add-to-cart clicks whose cart re-fetch fails POST the same id twice, so the backend cart holds a repeated id |
| Session.RefetchFailureLeavesClientStale | react-evalution-starting-code-main/index.js:215-220 | a delivered PATCH followed by a failed re-fetch leaves the client showing the old quantity |
| Scenarios.StepAdjustments | react-evalution-starting-code-main/index.js:190-192 | from any stock, + adds exactly one and - stops at zero |
| Scenarios.AddAppleToEmptyCart | react-evalution-starting-code-main/index.js:241-248 | adding "Apple" with stock 5 to an empty cart POSTs amount 5 and the cart becomes that one entry |
| Scenarios.AddAppleAgain | react-evalution-starting-code-main/index.js:232-240 | adding again when the stock is 3 PATCHes the amount to 5 + 3 = 8 |
| Scenarios.SubtractAtZero | react-evalution-starting-code-main/index.js:214-215 | subtracting at quantity 0 PATCHes 0 |
| Scenarios.AddOutOfStock | react-evalution-starting-code-main/index.js:241 | add-to-cart with no stock and no cart entry issues nothing |
| Scenarios.CheckoutTwoItems | react-evalution-starting-code-main/index.js:56-61 | checkout of two items issues GET and two DELETEs and leaves both carts empty |
| Scenarios.CheckoutPartialFailure | react-evalution-starting-code-main/index.js:266-273 | if one delete fails, the other item is gone remotely while the local cart stays as it was |

## Left out

- Fetch, URL building, headers and JSON (de)serialisation (index.js:1-54) are network I/O. Each call is modelled only by its assumed effect on the abstract backend. An HTTP error status that still returns a parsable body does not reject a `fetch`; the model does not distinguish that case from a delivered request.
- The View's `innerHTML`/`insertAdjacentHTML` rendering (index.js:126-161) is UI. The subscribed callback is therefore modelled only as a recorded invocation. The direct `renderInventory`/`renderCart` calls in `init`, `handleDelete` and `handleCheckout` (index.js:170, 175, 260, 269) are rendering only.
- DOM event delegation: `closest('li')`, reading and parsing the row id, and the class tests are reduced to the `Click` datatype and `Controller.Dispatch`.
- Promise sequencing across handlers: overlapping clicks and lost-update races. Each handler is one atomic step.
- `console.error` logging in the catch branches. A failure is modelled as "the chain stops here".
- The string cart id of `handleDelete` (index.js:255) against the integer inventory id (index.js:210). One integer id type is used.
- A request that the backend applies but whose response then rejects is not modelled. Examples are a connection dropped after the write, or a DELETE answered with an empty body, which makes `res.json()` reject (index.js:53). In the model a failing request never reaches the backend. So the model cannot reach, for instance, a checkout that empties the backend cart while the local cart keeps its items.
- A `Network` fails request values, not individual sends. Two identical requests in one click, such as the two `DeleteCart(1)` of a checkout over a cart that holds id 1 twice, always succeed or fail together. Ids stay unique only while every click is delivered (Session.RunKeepsConsistent). After a failed cart re-fetch, a second add-to-cart can POST an id that is already in the backend cart (Session.StaleCartDuplicatesId), because the assumed POST appends without checking. A later checkout then sends the same DELETE twice.
- Api.RemoveIdCommutes: proves that any two deletes commute. It does not prove that the whole list of checkout deletes gives the same result in every order.
- JavaScript numbers are doubles. Quantities and amounts are unbounded integers here, so precision loss above 2^53 is not modelled.
- A callback that itself throws, and an assignment of a value that is not an array, are not modelled.

=== FILE: api.dfy ===
/** The API client: the six REST calls and the derived checkout, modelled as
    requests against an abstract backend holding the two collections.

    The backend's behaviour is an ASSUMPTION of this model (a generic REST
    resource server): a PATCH sets the named field of the resource with that
    id, a POST appends the body as a new resource, a DELETE removes the
    resource with that id, and a GET changes nothing. */
module Api {
  import opened Items

  datatype Backend = Backend(inventory: seq<InventoryItem>, cart: seq<CartItem>)

  datatype Request =
    | GetInventory                              // GET /inventory
    | GetCart                                   // GET /cart
    | PatchInventory(id: int, quantity: int)    // PATCH /inventory/{id} {quantity}
    | PostCart(item: CartItem)                  // POST /cart {id, content, amount}
    | PatchCart(id: int, amount: int)           // PATCH /cart/{id} {amount}
    | DeleteCart(id: int)                       // DELETE /cart/{id}

  /** Requests addressed to the `/cart` collection. */
  predicate IsCartRequest(req: Request)
  {
    req.GetCart? || req.PostCart? || req.PatchCart? || req.DeleteCart?
  }

  /** The assumed effect of PATCH /inventory/{id}. */
  function SetQuantity(inv: seq<InventoryItem>, id: int, q: int): (r: seq<InventoryItem>)
    ensures |r| == |inv| && InventoryIds(r) == InventoryIds(inv)
    ensures forall i :: 0 <= i < |inv| && inv[i].id == id ==> r[i] == inv[i].(quantity := q)
    ensures forall i :: 0 <= i < |inv| && inv[i].id != id ==> r[i] == inv[i]
  {
    seq(|inv|, i requires 0 <= i < |inv| =>
      if inv[i].id == id then inv[i].(quantity := q) else inv[i])
  }

  /** The assumed effect of PATCH /cart/{id}. */
  function SetAmount(cart: seq<CartItem>, id: int, a: int): (r: seq<CartItem>)
    ensures |r| == |cart| && CartIds(r) == CartIds(cart)
    ensures forall i :: 0 <= i < |cart| && cart[i].id == id ==> r[i] == cart[i].(amount := a)
    ensures forall i :: 0 <= i < |cart| && cart[i].id != id ==> r[i] == cart[i]
  {
    seq(|cart|, i requires 0 <= i < |cart| =>
      if cart[i].id == id then cart[i].(amount := a) else cart[i])
  }

  /** The assumed effect of DELETE /cart/{id}: exactly the items with another id survive. */
  function RemoveId(cart: seq<CartItem>, id: int): (r: seq<CartItem>)
    ensures forall x :: x in r <==> x in cart && x.id != id
    ensures id !in CartIds(r)
    ensures |r| <= |cart|
    ensures id !in CartIds(cart) ==> r == cart
  {
    if |cart| == 0 then []
    else (if cart[0].id == id then [] else [cart[0]]) + RemoveId(cart[1..], id)
  }

  /** What one successful request does to the backend. */
  function Apply(b: Backend, req: Request): (r: Backend)
    ensures IsCartRequest(req) ==> r.inventory == b.inventory
    ensures !IsCartRequest(req) ==> r.cart == b.cart
    ensures req.GetInventory? || req.GetCart? ==> r == b
  {
    match req
    case GetInventory => b
    case GetCart => b
    case PatchInventory(id, q) => b.(inventory := SetQuantity(b.inventory, id, q))
    case PostCart(item) => b.(cart := b.cart + [item])
    case PatchCart(id, a) => b.(cart := SetAmount(b.cart, id, a))
    case DeleteCart(id) => b.(cart := RemoveId(b.cart, id))
  }

  /** `data.map((item) => deleteFromCart(item.id))`: one DELETE per fetched item. */
  function DeleteRequests(fetched: seq<CartItem>): (reqs: seq<Request>)
    ensures |reqs| == |fetched|
    ensures forall i :: 0 <= i < |fetched| ==> reqs[i] == DeleteCart(fetched[i].id)
  {
    seq(|fetched|, i requires 0 <= i < |fetched| => DeleteCart(fetched[i].id))
  }

  /** The backend after the concurrent deletes of a checkout, of which those
      whose request is in `failing` fail and change nothing. */
  function DeleteAll(b: Backend, reqs: seq<Request>, failing: set<Request>): (r: Backend)
    requires forall i :: 0 <= i < |reqs| ==> reqs[i].DeleteCart?
    ensures r.inventory == b.inventory
    decreases |reqs|
  {
    if |reqs| == 0 then b
    else
      var b' := if reqs[0] in failing then b else Apply(b, reqs[0]);
      DeleteAll(b', reqs[1..], failing)
  }

  /** An item survives the checkout deletes exactly when no delete names its
      id or every delete naming it failed. */
  lemma {:induction false} DeleteAllSurvivors(b: Backend, reqs: seq<Request>, failing: set<Request>)
    requires forall i :: 0 <= i < |reqs| ==> reqs[i].DeleteCart?
    ensures forall x :: x in DeleteAll(b, reqs, failing).cart <==>
      x in b.cart && forall i :: 0 <= i < |reqs| && reqs[i].id == x.id ==> reqs[i] in failing
    decreases |reqs|
  {
    if |reqs| > 0 {
      var b' := if reqs[0] in failing then b else Apply(b, reqs[0]);
      DeleteAllSurvivors(b', reqs[1..], failing);
      forall x
        ensures x in DeleteAll(b, reqs, failing).cart <==>
          x in b.cart && forall i :: 0 <= i < |reqs| && reqs[i].id == x.id ==> reqs[i] in failing
      {
        if x in DeleteAll(b, reqs, failing).cart {
          forall i | 0 <= i < |reqs| && reqs[i].id == x.id
            ensures reqs[i] in failing
          {
            if i > 0 {
              assert reqs[1..][i - 1] == reqs[i];
            }
          }
        } else if x in b.cart {
          var k :| 0 <= k < |reqs| && reqs[k].id == x.id && reqs[k] !in failing;
          if k > 0 {
            assert reqs[1..][k - 1] == reqs[k];
          }
        }
      }
    }
  }

  /** `API.checkout()` with every delete delivered leaves the backend's cart empty. */
  lemma CheckoutDeletesEverything(b: Backend, failing: set<Request>)
    requires forall i :: 0 <= i < |b.cart| ==> DeleteRequests(b.cart)[i] !in failing
    ensures DeleteAll(b, DeleteRequests(b.cart), failing).cart == []
    ensures DeleteAll(b, DeleteRequests(b.cart), failing).inventory == b.inventory
  {
    var deletes := DeleteRequests(b.cart);
    DeleteAllSurvivors(b, deletes, failing);
    var r := DeleteAll(b, deletes, failing).cart;
    forall x
      ensures x !in multiset(r)
    {
      if x in b.cart {
        var k :| 0 <= k < |b.cart| && b.cart[k] == x;
        assert deletes[k].id == x.id && deletes[k] !in failing;
      }
    }
    assert multiset(r) == multiset{};
  }

  lemma RemoveIdCons(x: CartItem, rest: seq<CartItem>, id: int)
    ensures RemoveId([x] + rest, id) == (if x.id == id then [] else [x]) + RemoveId(rest, id)
  {
    assert ([x] + rest)[1..] == rest;
  }

  /** Deletes succeed in any order with the same result, so issuing them
      concurrently (`Promise.all`) is the same as issuing them one by one. */
  lemma {:induction false} RemoveIdCommutes(cart: seq<CartItem>, a: int, c: int)
    ensures RemoveId(RemoveId(cart, a), c) == RemoveId(RemoveId(cart, c), a)
  {
    if |cart| > 0 {
      var x, rest := cart[0], cart[1..];
      assert cart == [x] + rest;
      RemoveIdCommutes(rest, a, c);
      var ra, rc := RemoveId(rest, a), RemoveId(rest, c);
      RemoveIdCons(x, rest, a);
      RemoveIdCons(x, rest, c);
      if x.id == a && x.id == c {
        assert RemoveId(cart, a) == ra && RemoveId(cart, c) == rc;
      } else if x.id == a {
        assert RemoveId(cart, a) == ra;
        assert RemoveId(cart, c) == [x] + rc;
        RemoveIdCons(x, rc, a);
      } else if x.id == c {
        assert RemoveId(cart, a) == [x] + ra;
        assert RemoveId(cart, c) == rc;
        RemoveIdCons(x, ra, c);
      } else {
        assert RemoveId(cart, a) == [x] + ra;
        assert RemoveId(cart, c) == [x] + rc;
        RemoveIdCons(x, ra, c);
        RemoveIdCons(x, rc, a);
      }
    }
  }

  lemma TailKeepsUnique(cart: seq<CartItem>)
    requires |cart| > 0 && UniqueIds(CartIds(cart))
    ensures UniqueIds(CartIds(cart[1..])) && cart[0].id !in CartIds(cart[1..])
  {
    var t := cart[1..];
    forall i, j | 0 <= i < j < |t|
      ensures CartIds(t)[i] != CartIds(t)[j]
    {
      assert CartIds(cart)[i + 1] != CartIds(cart)[j + 1];
    }
    forall k | 0 <= k < |t|
      ensures CartIds(t)[k] != cart[0].id
    {
      assert CartIds(cart)[0] != CartIds(cart)[k + 1];
    }
  }

  lemma ConsKeepsUnique(x: CartItem, t: seq<CartItem>)
    requires UniqueIds(CartIds(t)) && x.id !in CartIds(t)
    ensures UniqueIds(CartIds([x] + t))
  {
    var r := [x] + t;
    forall i, j | 0 <= i < j < |r|
      ensures CartIds(r)[i] != CartIds(r)[j]
    {
      assert CartIds(r)[j] == CartIds(t)[j - 1];
      if i > 0 {
        assert CartIds(r)[i] == CartIds(t)[i - 1];
      }
    }
  }

  /** Every id left by a delete was already in the cart. */
  lemma RemoveIdIdsFromCart(cart: seq<CartItem>, id: int, k: int)
    requires k !in CartIds(cart)
    ensures k !in CartIds(RemoveId(cart, id))
  {
  }

  /** Deleting never introduces a repeated id. */
  lemma {:induction false} RemoveIdKeepsUnique(cart: seq<CartItem>, id: int)
    requires UniqueIds(CartIds(cart))
    ensures UniqueIds(CartIds(RemoveId(cart, id)))
  {
    if |cart| > 0 {
      var x, t := cart[0], cart[1..];
      assert cart == [x] + t;
      TailKeepsUnique(cart);
      RemoveIdKeepsUnique(t, id);
      RemoveIdCons(x, t, id);
      if x.id != id {
        RemoveIdIdsFromCart(t, id, x.id);
        ConsKeepsUnique(x, RemoveId(t, id));
      }
    }
  }
}

=== FILE: controller.dfy ===
/** The Controller: start-up, the click handlers and the routing of clicks
    to handlers, each handler taken as one atomic step over the client's
    state container and the backend. */
module Controller {
  import opened Wrappers
  import opened Items
  import opened Api
  import opened Model

  /** The client's state container next to the backend it mirrors. */
  datatype World = World(client: State, server: Backend)

  /** The requests that fail when issued (a rejected `fetch` or response).
      A failing request has no effect on the backend, and the promise chain
      it belongs to stops at the `catch`, which only logs. */
  datatype Network = Network(failing: set<Request>)

  /** The world a handler leaves behind and the requests it issued, in order. */
  datatype Step = Step(world: World, requests: seq<Request>)

  datatype Collection = InventoryCollection | CartCollection

  /** Every request of the network is delivered. */
  predicate Reliable(net: Network)
  {
    net.failing == {}
  }

  /** The client holds exactly what the backend holds. */
  predicate Synced(w: World)
  {
    w.client.inventory == w.server.inventory && w.client.cart == w.server.cart
  }

  function Refetch(c: Collection): (r: Request)
  {
    match c
    case InventoryCollection => GetInventory
    case CartCollection => GetCart
  }

  /** `state.inventory = data` or `state.cart = data` with a freshly fetched collection. */
  function Store(s: State, c: Collection, b: Backend): (r: State)
    ensures c == InventoryCollection ==> r.inventory == b.inventory && r.cart == s.cart
    ensures c == CartCollection ==> r.cart == b.cart && r.inventory == s.inventory
    ensures r.onChange == s.onChange
    ensures s.onChange.Some? ==> r.fired == s.fired + [Notification(s.onChange.value, r.inventory, r.cart)]
    ensures s.onChange.None? ==> r.fired == s.fired
  {
    match c
    case InventoryCollection => SetInventory(s, b.inventory).state
    case CartCollection => SetCart(s, b.cart).state
  }

  /** `model.mutate(...).then(() => model.getX()).then(data => { state.x = data; })`
      followed by a logging `catch`. */
  function MutateThenRefetch(w: World, req: Request, c: Collection, net: Network): (r: Step)
    ensures 1 <= |r.requests| <= 2 && r.requests[0] == req
    ensures |r.requests| == 2 ==> r.requests[1] == Refetch(c)
    ensures req in net.failing ==> r == Step(w, [req])
    ensures req !in net.failing ==> r.requests == [req, Refetch(c)]
    ensures req !in net.failing ==> r.world.server == Apply(w.server, req)
    ensures Refetch(c) in net.failing ==> r.world.client == w.client
    ensures c == InventoryCollection ==> r.world.client.cart == w.client.cart
    ensures c == CartCollection ==> r.world.client.inventory == w.client.inventory
    ensures r.world.client.onChange == w.client.onChange
    ensures req !in net.failing && Refetch(c) !in net.failing && c == InventoryCollection ==>
      r.world.client.inventory == r.world.server.inventory
    ensures req !in net.failing && Refetch(c) !in net.failing && c == CartCollection ==>
      r.world.client.cart == r.world.server.cart
    ensures req !in net.failing && Refetch(c) !in net.failing && w.client.onChange.Some? ==>
      r.world.client.fired ==
        w.client.fired + [Notification(w.client.onChange.value, r.world.client.inventory, r.world.client.cart)]
  {
    if req in net.failing then Step(w, [req])
    else
      var b := Apply(w.server, req);
      if Refetch(c) in net.failing then Step(World(w.client, b), [req, Refetch(c)])
      else Step(World(Store(w.client, c, b), b), [req, Refetch(c)])
  }

  /** `Math.max(0, quantity + change)`. */
  function NewQuantity(quantity: int, change: int): (r: int)
    ensures r >= 0 && r >= quantity + change
    ensures r == 0 || r == quantity + change
  {
    if quantity + change < 0 then 0 else quantity + change
  }

  /** `handleUpdateAmount(event, change)` on the row of inventory item `id`. */
  function HandleUpdateAmount(w: World, id: int, change: int, net: Network): (r: Step)
    ensures FindInventory(w.client.inventory, id).None? ==> r == Step(w, [])
    ensures FindInventory(w.client.inventory, id).Some? ==>
      var q := FindInventory(w.client.inventory, id).value.quantity;
      && |r.requests| >= 1
      && r.requests[0] == PatchInventory(id, NewQuantity(q, change))
    ensures forall i :: 0 <= i < |r.requests| ==> !IsCartRequest(r.requests[i])
    ensures r.world.client.cart == w.client.cart && r.world.server.cart == w.server.cart
    ensures FindInventory(w.client.inventory, id).Some? ==>
      var patch := PatchInventory(id, NewQuantity(FindInventory(w.client.inventory, id).value.quantity, change));
      && (patch in net.failing ==> r == Step(w, [patch]))
      && (patch !in net.failing ==> r.requests == [patch, GetInventory])
      && (patch !in net.failing ==> r.world.server.inventory == SetQuantity(w.server.inventory, id, patch.quantity))
      && (GetInventory in net.failing ==> r.world.client == w.client)
      && (patch !in net.failing && GetInventory !in net.failing ==>
            r.world.client.inventory == r.world.server.inventory)
  {
    match FindInventory(w.client.inventory, id)
    case None => Step(w, [])
    case Some(item) =>
      MutateThenRefetch(w, PatchInventory(id, NewQuantity(item.quantity, change)), InventoryCollection, net)
  }

  /** `handleAddToCart(event)` on the row of inventory item `id`: raise an
      existing cart entry by the item's current stock, create an entry
      holding the whole stock, or do nothing. */
  function HandleAddToCart(w: World, id: int, net: Network): (r: Step)
    ensures FindInventory(w.client.inventory, id).None? ==> r == Step(w, [])
    ensures FindInventory(w.client.inventory, id).Some? && FindCart(w.client.cart, id).Some? ==>
      var item, entry := FindInventory(w.client.inventory, id).value, FindCart(w.client.cart, id).value;
      |r.requests| >= 1 && r.requests[0] == PatchCart(id, entry.amount + item.quantity)
    ensures FindInventory(w.client.inventory, id).Some? && FindCart(w.client.cart, id).None? ==>
      var item := FindInventory(w.client.inventory, id).value;
      if item.quantity > 0 then
        |r.requests| >= 1 && r.requests[0] == PostCart(CartItem(item.id, item.content, item.quantity))
      else r == Step(w, [])
    ensures forall i :: 0 <= i < |r.requests| ==> IsCartRequest(r.requests[i])
    ensures r.world.client.inventory == w.client.inventory && r.world.server.inventory == w.server.inventory
    ensures FindInventory(w.client.inventory, id).Some? && FindCart(w.client.cart, id).Some? ==>
      var item, entry := FindInventory(w.client.inventory, id).value, FindCart(w.client.cart, id).value;
      var patch := PatchCart(id, entry.amount + item.quantity);
      && (patch in net.failing ==> r == Step(w, [patch]))
      && (patch !in net.failing ==> r.requests == [patch, GetCart])
      && (patch !in net.failing ==> r.world.server.cart == SetAmount(w.server.cart, id, entry.amount + item.quantity))
    ensures FindInventory(w.client.inventory, id).Some? && FindCart(w.client.cart, id).None?
            && FindInventory(w.client.inventory, id).value.quantity > 0 ==>
      var item := FindInventory(w.client.inventory, id).value;
      var post := PostCart(CartItem(item.id, item.content, item.quantity));
      && (post in net.failing ==> r == Step(w, [post]))
      && (post !in net.failing ==> r.requests == [post, GetCart])
      && (post !in net.failing ==> r.world.server.cart == w.server.cart + [CartItem(item.id, item.content, item.quantity)])
    ensures GetCart in net.failing ==> r.world.client == w.client
    ensures |r.requests| == 2 && GetCart !in net.failing ==> r.world.client.cart == r.world.server.cart
  {
    match FindInventory(w.client.inventory, id)
    case None => Step(w, [])
    case Some(item) =>
      match FindCart(w.client.cart, id)
      case Some(entry) =>
        MutateThenRefetch(w, PatchCart(id, entry.amount + item.quantity), CartCollection, net)
      case None =>
        if item.quantity > 0 then
          MutateThenRefetch(w, PostCart(CartItem(item.id, item.content, item.quantity)), CartCollection, net)
        else Step(w, [])
  }

  /** `handleDelete(event)` on the row of cart item `id`; no lookup precedes the DELETE. */
  function HandleDelete(w: World, id: int, net: Network): (r: Step)
    ensures |r.requests| >= 1 && r.requests[0] == DeleteCart(id)
    ensures forall i :: 0 <= i < |r.requests| ==> IsCartRequest(r.requests[i])
    ensures r.world.client.inventory == w.client.inventory && r.world.server.inventory == w.server.inventory
    ensures DeleteCart(id) !in net.failing ==>
      forall x :: x in r.world.server.cart <==> x in w.server.cart && x.id != id
    ensures DeleteCart(id) !in net.failing ==> id !in CartIds(r.world.server.cart)
    ensures DeleteCart(id) in net.failing ==> r == Step(w, [DeleteCart(id)])
    ensures DeleteCart(id) !in net.failing ==>
      r.requests == [DeleteCart(id), GetCart] && r.world.server.cart == RemoveId(w.server.cart, id)
    ensures GetCart in net.failing ==> r.world.client == w.client
    ensures DeleteCart(id) !in net.failing && GetCart !in net.failing ==> r.world.client.cart == r.world.server.cart
  {
    MutateThenRefetch(w, DeleteCart(id), CartCollection, net)
  }

  /** No delete of the list fails. */
  predicate AllDelivered(reqs: seq<Request>, net: Network)
  {
    forall i | 0 <= i < |reqs| :: reqs[i] !in net.failing
  }

  /** `handleCheckout()` over `API.checkout()`: fetch the backend's cart,
      issue one DELETE per fetched item, and clear the local cart only when
      every delete succeeded. */
  function HandleCheckout(w: World, net: Network): (r: Step)
    ensures |r.requests| >= 1 && r.requests[0] == GetCart
    ensures GetCart !in net.failing ==> |r.requests| == 1 + |w.server.cart|
    ensures GetCart !in net.failing ==>
      forall i :: 0 <= i < |w.server.cart| ==> r.requests[i + 1] == DeleteCart(w.server.cart[i].id)
    ensures r.world.client.inventory == w.client.inventory && r.world.server.inventory == w.server.inventory
    ensures GetCart in net.failing ==> r == Step(w, [GetCart])
    ensures GetCart !in net.failing ==> r.requests == [GetCart] + DeleteRequests(w.server.cart)
    ensures GetCart !in net.failing ==> r.world.server == DeleteAll(w.server, DeleteRequests(w.server.cart), net.failing)
    ensures GetCart !in net.failing && !AllDelivered(DeleteRequests(w.server.cart), net) ==> r.world.client == w.client
    ensures GetCart !in net.failing && AllDelivered(DeleteRequests(w.server.cart), net) ==>
      r.world.client.cart == [] && r.world.server.cart == []
    ensures GetCart !in net.failing && AllDelivered(DeleteRequests(w.server.cart), net) && w.client.onChange.Some? ==>
      r.world.client.fired == w.client.fired + [Notification(w.client.onChange.value, w.client.inventory, [])]
  {
    if GetCart in net.failing then Step(w, [GetCart])
    else
      var deletes := DeleteRequests(w.server.cart);
      var b := DeleteAll(w.server, deletes, net.failing);
      if AllDelivered(deletes, net) then
        (CheckoutDeletesEverything(w.server, net.failing);
         Step(World(SetCart(w.client, []).state, b), [GetCart] + deletes))
      else Step(World(w.client, b), [GetCart] + deletes)
  }

  /** The buttons the delegated click listeners react to, with the id of the
      row they sit in. */
  datatype Click =
    | AddButton(id: int)
    | SubtractButton(id: int)
    | AddToCartButton(id: int)
    | DeleteButton(id: int)
    | CheckoutButton

  /** `setupEventListeners`: which handler a click runs. */
  function Dispatch(w: World, click: Click, net: Network): (r: Step)
    ensures r.world.client.onChange == w.client.onChange
    ensures click.AddButton? || click.SubtractButton? ==>
      && r.world.client.cart == w.client.cart && r.world.server.cart == w.server.cart
      && forall i :: 0 <= i < |r.requests| ==> !IsCartRequest(r.requests[i])
    ensures !(click.AddButton? || click.SubtractButton?) ==>
      && r.world.client.inventory == w.client.inventory && r.world.server.inventory == w.server.inventory
      && forall i :: 0 <= i < |r.requests| ==> IsCartRequest(r.requests[i])
    ensures click.AddButton? && FindInventory(w.client.inventory, click.id).Some? ==>
      var q := FindInventory(w.client.inventory, click.id).value.quantity;
      |r.requests| >= 1 && r.requests[0] == PatchInventory(click.id, NewQuantity(q, 1))
    ensures click.SubtractButton? && FindInventory(w.client.inventory, click.id).Some? ==>
      var q := FindInventory(w.client.inventory, click.id).value.quantity;
      |r.requests| >= 1 && r.requests[0] == PatchInventory(click.id, NewQuantity(q, -1))
    ensures click.AddToCartButton? && r.requests != [] ==>
      || (r.requests[0].PatchCart? && r.requests[0].id == click.id)
      || (r.requests[0].PostCart? && r.requests[0].item.id == click.id)
    ensures click.DeleteButton? ==> |r.requests| >= 1 && r.requests[0] == DeleteCart(click.id)
    ensures click.CheckoutButton? ==> |r.requests| >= 1 && r.requests[0] == GetCart
  {
    match click
    case AddButton(id) => HandleUpdateAmount(w, id, 1, net)
    case SubtractButton(id) => HandleUpdateAmount(w, id, -1, net)
    case AddToCartButton(id) => HandleAddToCart(w, id, net)
    case DeleteButton(id) => HandleDelete(w, id, net)
    case CheckoutButton => HandleCheckout(w, net)
  }

  /** `init()`: the fetches are started first, but `subscribe` runs
      synchronously before any of them can resolve, so both assignments
      reach the callback. */
  function Init(server: Backend, cb: Callback, net: Network): (r: World)
    ensures r.server == server && r.client.onChange == Some(cb)
    ensures forall i :: 0 <= i < |r.client.fired| ==> r.client.fired[i].callback == cb
    ensures GetInventory in net.failing ==> r.client.inventory == [] && r.client.cart == [] && r.client.fired == []
    ensures GetInventory !in net.failing && GetCart in net.failing ==>
      && r.client.inventory == server.inventory && r.client.cart == []
      && r.client.fired == [Notification(cb, server.inventory, [])]
    ensures GetInventory !in net.failing && GetCart !in net.failing ==>
      && Synced(r)
      && r.client.fired == [Notification(cb, server.inventory, []), Notification(cb, server.inventory, server.cart)]
  {
    var s := Subscribe(NewState(), cb);
    if GetInventory in net.failing then World(s, server)
    else
      var s1 := SetInventory(s, server.inventory).state;
      if GetCart in net.failing then World(s1, server)
      else World(SetCart(s1, server.cart).state, server)
  }
}

=== FILE: items.dfy ===
/** The records held by the backend's two collections and the lookups the
    controller performs on its local copies of them. */
module Items {
  import opened Wrappers

  /** A stock-keeping unit of the `/inventory` collection. */
  datatype InventoryItem = InventoryItem(id: int, content: string, quantity: int)

  /** A quantity of an inventory item reserved in the `/cart` collection;
      it shares its id with the inventory item it was copied from. */
  datatype CartItem = CartItem(id: int, content: string, amount: int)

  function InventoryIds(inv: seq<InventoryItem>): (ids: seq<int>)
    ensures |ids| == |inv|
    ensures forall i :: 0 <= i < |inv| ==> ids[i] == inv[i].id
  {
    seq(|inv|, i requires 0 <= i < |inv| => inv[i].id)
  }

  function CartIds(cart: seq<CartItem>): (ids: seq<int>)
    ensures |ids| == |cart|
    ensures forall i :: 0 <= i < |cart| ==> ids[i] == cart[i].id
  {
    seq(|cart|, i requires 0 <= i < |cart| => cart[i].id)
  }

  /** Position of the first occurrence of `id`, the search `find` performs. */
  function FirstIndex(ids: seq<int>, id: int): (r: Option<nat>)
    ensures r.None? <==> id !in ids
    ensures r.Some? ==> r.value < |ids| && ids[r.value] == id
    ensures r.Some? ==> forall j :: 0 <= j < r.value ==> ids[j] != id
  {
    if |ids| == 0 then None
    else if ids[0] == id then Some(0)
    else match FirstIndex(ids[1..], id)
      case None => None
      case Some(k) => Some(k + 1)
  }

  /** `state.inventory.find(item => item.id === id)`. */
  function FindInventory(inv: seq<InventoryItem>, id: int): (r: Option<InventoryItem>)
    ensures r.None? <==> id !in InventoryIds(inv)
    ensures r.Some? ==> r.value.id == id && r.value in inv
    ensures r.Some? ==> exists k :: 0 <= k < |inv| && inv[k] == r.value
                                    && forall j :: 0 <= j < k ==> inv[j].id != id
  {
    match FirstIndex(InventoryIds(inv), id)
    case None => None
    case Some(k) => Some(inv[k])
  }

  /** `state.cart.find(item => item.id === id)`. */
  function FindCart(cart: seq<CartItem>, id: int): (r: Option<CartItem>)
    ensures r.None? <==> id !in CartIds(cart)
    ensures r.Some? ==> r.value.id == id && r.value in cart
    ensures r.Some? ==> exists k :: 0 <= k < |cart| && cart[k] == r.value
                                    && forall j :: 0 <= j < k ==> cart[j].id != id
  {
    match FirstIndex(CartIds(cart), id)
    case None => None
    case Some(k) => Some(cart[k])
  }

  /** No id occurs twice: the identity the backend keys its resources on. */
  predicate UniqueIds(ids: seq<int>)
  {
    forall i, j :: 0 <= i < j < |ids| ==> ids[i] != ids[j]
  }

  /** On a collection with unique ids, the item `find` returns is THE item with that id. */
  lemma FindInventoryUnique(inv: seq<InventoryItem>, id: int, x: InventoryItem)
    requires UniqueIds(InventoryIds(inv))
    requires x in inv && x.id == id
    ensures FindInventory(inv, id) == Some(x)
  {
    var r := FindInventory(inv, id);
    assert id in InventoryIds(inv) by {
      var i :| 0 <= i < |inv| && inv[i] == x;
      assert InventoryIds(inv)[i] == id;
    }
    var k :| 0 <= k < |inv| && inv[k] == r.value;
    var i :| 0 <= i < |inv| && inv[i] == x;
    assert InventoryIds(inv)[k] == id && InventoryIds(inv)[i] == id;
    assert i == k;
  }

  predicate InventoryNonNegative(inv: seq<InventoryItem>)
  {
    forall i :: 0 <= i < |inv| ==> inv[i].quantity >= 0
  }

  predicate CartNonNegative(cart: seq<CartItem>)
  {
    forall i :: 0 <= i < |cart| ==> cart[i].amount >= 0
  }
}

=== FILE: model.dfy ===
/** The `State` container: two whole-value fields and a single change
    callback that every assignment invokes synchronously. */
module Model {
  import opened Wrappers
  import opened Items

  /** The identity of a registered callback function. */
  datatype Callback = Callback(token: nat)

  /** One invocation of the callback, with the fields it observes when it runs. */
  datatype Notification = Notification(callback: Callback, inventory: seq<InventoryItem>, cart: seq<CartItem>)

  /** The private fields `#inventory`, `#cart` and `#onChange`, plus the
      history of callback invocations the container has made. */
  datatype State = State(
    inventory: seq<InventoryItem>,
    cart: seq<CartItem>,
    onChange: Option<Callback>,
    fired: seq<Notification>)

  /** The outcome of a setter: the state it leaves and whether it threw
      (calling an unset `#onChange` is a TypeError, raised after the field
      has already been replaced). */
  datatype Assigned = Assigned(state: State, threw: bool)

  /** `new State()`. */
  function NewState(): (s: State)
    ensures s.inventory == [] && s.cart == []
    ensures s.onChange.None? && s.fired == []
  {
    State([], [], None, [])
  }

  /** `subscribe(cb)`: overwrites any earlier registration. */
  function Subscribe(s: State, cb: Callback): (r: State)
    ensures r.onChange == Some(cb)
    ensures r.inventory == s.inventory && r.cart == s.cart && r.fired == s.fired
  {
    s.(onChange := Some(cb))
  }

  /** `this.#onChange()`: one invocation of the registered callback, which
      sees the fields as they are now. */
  function Notify(s: State): (r: Assigned)
    ensures r.threw <==> s.onChange.None?
    ensures r.state.inventory == s.inventory && r.state.cart == s.cart
    ensures r.state.onChange == s.onChange
    ensures r.threw ==> r.state.fired == s.fired
    ensures !r.threw ==> |r.state.fired| == |s.fired| + 1 && r.state.fired[..|s.fired|] == s.fired
    ensures !r.threw ==> r.state.fired[|s.fired|] == Notification(s.onChange.value, s.inventory, s.cart)
  {
    match s.onChange
    case None => Assigned(s, true)
    case Some(cb) => Assigned(s.(fired := s.fired + [Notification(cb, s.inventory, s.cart)]), false)
  }

  /** `set cart(newCart)`. */
  function SetCart(s: State, newCart: seq<CartItem>): (r: Assigned)
    ensures r.state.cart == newCart
    ensures r.state.inventory == s.inventory && r.state.onChange == s.onChange
    ensures r.threw <==> s.onChange.None?
    ensures r.threw ==> r.state.fired == s.fired
    ensures !r.threw ==> r.state.fired == s.fired + [Notification(s.onChange.value, s.inventory, newCart)]
  {
    Notify(s.(cart := newCart))
  }

  /** `set inventory(newInventory)`. */
  function SetInventory(s: State, newInventory: seq<InventoryItem>): (r: Assigned)
    ensures r.state.inventory == newInventory
    ensures r.state.cart == s.cart && r.state.onChange == s.onChange
    ensures r.threw <==> s.onChange.None?
    ensures r.threw ==> r.state.fired == s.fired
    ensures !r.threw ==> r.state.fired == s.fired + [Notification(s.onChange.value, newInventory, s.cart)]
  {
    Notify(s.(inventory := newInventory))
  }

  /** One assignment through a setter. */
  datatype Assignment =
    | AssignInventory(inventory: seq<InventoryItem>)
    | AssignCart(cart: seq<CartItem>)

  /** The value an assignment stores reaches the field it names; the other
      field is untouched. */
  predicate Stored(before: State, a: Assignment, after: State)
  {
    match a
    case AssignInventory(inv) => after.inventory == inv && after.cart == before.cart
    case AssignCart(c) => after.cart == c && after.inventory == before.inventory
  }

  function Perform(s: State, a: Assignment): (r: Assigned)
    ensures Stored(s, a, r.state) && r.state.onChange == s.onChange
    ensures r.threw <==> s.onChange.None?
    ensures !r.threw ==>
      r.state.fired == s.fired + [Notification(s.onChange.value, r.state.inventory, r.state.cart)]
  {
    match a
    case AssignInventory(inv) => SetInventory(s, inv)
    case AssignCart(c) => SetCart(s, c)
  }

  /** A series of assignments, each after the previous one returned. */
  function PerformAll(s: State, assigns: seq<Assignment>): (r: State)
    decreases |assigns|
  {
    if |assigns| == 0 then s
    else PerformAll(Perform(s, assigns[0]).state, assigns[1..])
  }

  /** The callback a setter calls is the one most recently subscribed. */
  lemma LastSubscriberWins(s: State, first: Callback, second: Callback, a: Assignment)
    ensures |Perform(Subscribe(Subscribe(s, first), second), a).state.fired| == |s.fired| + 1
    ensures Perform(Subscribe(Subscribe(s, first), second), a).state.fired[|s.fired|].callback == second
  {
  }

  /** Once a callback is registered, any series of assignments invokes it
      exactly once per assignment, in order, and never anything else. */
  lemma {:induction false} OneNotificationPerAssignment(s: State, assigns: seq<Assignment>)
    requires s.onChange.Some?
    ensures PerformAll(s, assigns).onChange == s.onChange
    ensures |PerformAll(s, assigns).fired| == |s.fired| + |assigns|
    ensures PerformAll(s, assigns).fired[..|s.fired|] == s.fired
    ensures forall i :: |s.fired| <= i < |PerformAll(s, assigns).fired| ==>
      PerformAll(s, assigns).fired[i].callback == s.onChange.value
    decreases |assigns|
  {
    if |assigns| > 0 {
      var t := Perform(s, assigns[0]).state;
      OneNotificationPerAssignment(t, assigns[1..]);
      var f := PerformAll(t, assigns[1..]);
      assert f.fired[..|s.fired|] == f.fired[..|t.fired|][..|s.fired|];
      forall i | |s.fired| <= i < |f.fired|
        ensures f.fired[i].callback == s.onChange.value
      {
        if i == |s.fired| {
          assert f.fired[i] == f.fired[..|t.fired|][i];
        }
      }
    }
  }

  /** Each invocation runs after its field has been replaced: the i-th new
      notification sees the i-th assigned value, and the last one sees the
      final fields. */
  lemma {:induction false} NotificationsSeeAssignedValues(s: State, assigns: seq<Assignment>)
    requires s.onChange.Some?
    ensures |PerformAll(s, assigns).fired| == |s.fired| + |assigns|
    ensures forall i :: 0 <= i < |assigns| && assigns[i].AssignInventory? ==>
      PerformAll(s, assigns).fired[|s.fired| + i].inventory == assigns[i].inventory
    ensures forall i :: 0 <= i < |assigns| && assigns[i].AssignCart? ==>
      PerformAll(s, assigns).fired[|s.fired| + i].cart == assigns[i].cart
    ensures |assigns| > 0 ==>
      var f := PerformAll(s, assigns);
      f.fired[|f.fired| - 1] == Notification(s.onChange.value, f.inventory, f.cart)
    decreases |assigns|
  {
    OneNotificationPerAssignment(s, assigns);
    if |assigns| > 0 {
      var t := Perform(s, assigns[0]).state;
      NotificationsSeeAssignedValues(t, assigns[1..]);
      OneNotificationPerAssignment(t, assigns[1..]);
      var f := PerformAll(t, assigns[1..]);
      assert f.fired[|s.fired|] == f.fired[..|t.fired|][|s.fired|] == t.fired[|s.fired|];
      forall i | 0 <= i < |assigns|
        ensures assigns[i].AssignInventory? ==> f.fired[|s.fired| + i].inventory == assigns[i].inventory
        ensures assigns[i].AssignCart? ==> f.fired[|s.fired| + i].cart == assigns[i].cart
      {
        if i > 0 {
          assert assigns[1..][i - 1] == assigns[i];
        }
      }
    }
  }
}

=== FILE: scenarios.dfy ===
/** Worked examples of the handlers on small concrete collections. */
module Scenarios {
  import opened Wrappers
  import opened Items
  import opened Api
  import opened Model
  import opened Controller

  /** A client subscribed with callback 0 that mirrors `b`, with no notifications yet. */
  function MirrorOf(b: Backend): (w: World)
    ensures Synced(w) && w.server == b && w.client.onChange == Some(Callback(0))
  {
    World(State(b.inventory, b.cart, Some(Callback(0)), []), b)
  }

  /** The increment always adds one; the decrement stops at zero. */
  lemma StepAdjustments(q: int)
    requires q >= 0
    ensures NewQuantity(q, 1) == q + 1
    ensures NewQuantity(q, -1) == if q == 0 then 0 else q - 1
  {
  }

  /** Adding "Apple" (stock 5) to an empty cart posts an entry of amount 5. */
  lemma AddAppleToEmptyCart()
    ensures var s := Dispatch(MirrorOf(Backend([InventoryItem(1, "Apple", 5)], [])), AddToCartButton(1), Network({}));
            && s.requests == [PostCart(CartItem(1, "Apple", 5)), GetCart]
            && s.world.client.cart == [CartItem(1, "Apple", 5)]
            && |s.world.client.fired| == 1
  {
  }

  /** Adding it again when the stock has become 3 patches the amount to 5 + 3. */
  lemma AddAppleAgain()
    ensures var s := Dispatch(MirrorOf(Backend([InventoryItem(1, "Apple", 3)], [CartItem(1, "Apple", 5)])),
                              AddToCartButton(1), Network({}));
            && s.requests == [PatchCart(1, 8), GetCart]
            && s.world.client.cart == [CartItem(1, "Apple", 8)]
  {
    var w := MirrorOf(Backend([InventoryItem(1, "Apple", 3)], [CartItem(1, "Apple", 5)]));
    assert FindCart(w.client.cart, 1) == Some(CartItem(1, "Apple", 5));
  }

  /** Subtracting at quantity 0 patches the quantity to 0, not -1. */
  lemma SubtractAtZero()
    ensures var s := Dispatch(MirrorOf(Backend([InventoryItem(1, "Apple", 0)], [])), SubtractButton(1), Network({}));
            && s.requests == [PatchInventory(1, 0), GetInventory]
            && s.world.client.inventory == [InventoryItem(1, "Apple", 0)]
  {
  }

  /** Add-to-cart with no stock and no cart entry issues nothing. */
  lemma AddOutOfStock()
    ensures var w := MirrorOf(Backend([InventoryItem(1, "Apple", 0)], []));
            Dispatch(w, AddToCartButton(1), Network({})) == Step(w, [])
  {
  }

  /** Checkout of a two-item cart fetches the cart, deletes both items and
      leaves both carts empty. */
  lemma CheckoutTwoItems()
    ensures var s := Dispatch(MirrorOf(Backend([], [CartItem(1, "Apple", 5), CartItem(2, "Pear", 1)])),
                              CheckoutButton, Network({}));
            && s.requests == [GetCart, DeleteCart(1), DeleteCart(2)]
            && s.world.client.cart == [] && s.world.server.cart == []
  {
  }

  /** If the second delete fails, the first item is gone from the backend,
      the second remains, and the client's cart is left as it was. */
  lemma CheckoutPartialFailure()
    ensures var w := MirrorOf(Backend([], [CartItem(1, "Apple", 5), CartItem(2, "Pear", 1)]));
            var s := Dispatch(w, CheckoutButton, Network({DeleteCart(2)}));
            && s.requests == [GetCart, DeleteCart(1), DeleteCart(2)]
            && s.world.server.cart == [CartItem(2, "Pear", 1)]
            && s.world.client.cart == w.client.cart
  {
    var w := MirrorOf(Backend([], [CartItem(1, "Apple", 5), CartItem(2, "Pear", 1)]));
    var deletes := DeleteRequests(w.server.cart);
    assert deletes == [DeleteCart(1), DeleteCart(2)];
    assert !AllDelivered(deletes, Network({DeleteCart(2)})) by {
      assert deletes[1] in {DeleteCart(2)};
    }
  }
}

=== FILE: session.dfy ===
/** Properties of whole sessions: start-up followed by any series of clicks. */
module Session {
  import opened Wrappers
  import opened Items
  import opened Api
  import opened Model
  import opened Controller

  /** No quantity or amount, on either side, is negative. */
  predicate NonNegative(w: World)
  {
    && InventoryNonNegative(w.client.inventory) && InventoryNonNegative(w.server.inventory)
    && CartNonNegative(w.client.cart) && CartNonNegative(w.server.cart)
  }

  /** The client mirrors the backend and the backend's ids are unique. */
  predicate Consistent(w: World)
  {
    Synced(w) && UniqueIds(InventoryIds(w.server.inventory)) && UniqueIds(CartIds(w.server.cart))
  }

  /** One click together with the fate of the requests it issues. */
  datatype Event = Event(click: Click, net: Network)

  function Run(w: World, events: seq<Event>): (r: World)
    decreases |events|
  {
    if |events| == 0 then w
    else Run(Dispatch(w, events[0].click, events[0].net).world, events[1..])
  }

  lemma AppendKeepsUnique(cart: seq<CartItem>, item: CartItem)
    requires UniqueIds(CartIds(cart)) && item.id !in CartIds(cart)
    ensures UniqueIds(CartIds(cart + [item]))
  {
    var r := cart + [item];
    forall i, j | 0 <= i < j < |r|
      ensures CartIds(r)[i] != CartIds(r)[j]
    {
      if j == |cart| {
        assert CartIds(r)[i] == CartIds(cart)[i];
      } else {
        assert CartIds(cart)[i] != CartIds(cart)[j];
      }
    }
  }

  lemma DeleteAllKeepsNonNegative(b: Backend, reqs: seq<Request>, failing: set<Request>)
    requires forall i :: 0 <= i < |reqs| ==> reqs[i].DeleteCart?
    requires CartNonNegative(b.cart)
    ensures CartNonNegative(DeleteAll(b, reqs, failing).cart)
  {
    DeleteAllSurvivors(b, reqs, failing);
    var r := DeleteAll(b, reqs, failing).cart;
    forall i | 0 <= i < |r|
      ensures r[i].amount >= 0
    {
      assert r[i] in b.cart;
    }
  }

  /** Whatever the network does, a click never makes a quantity or an
      amount negative: decrements are clamped at zero, and cart amounts are
      sums of stock figures that are themselves never negative. */
  lemma DispatchKeepsNonNegative(w: World, click: Click, net: Network)
    requires NonNegative(w)
    ensures NonNegative(Dispatch(w, click, net).world)
  {
    var r := Dispatch(w, click, net).world;
    match click
    case AddButton(id) =>
    case SubtractButton(id) =>
    case AddToCartButton(id) =>
      match FindInventory(w.client.inventory, id) {
        case None =>
        case Some(item) =>
          assert item.quantity >= 0;
          match FindCart(w.client.cart, id) {
            case Some(entry) =>
              assert entry.amount >= 0;
            case None =>
          }
      }
    case DeleteButton(id) =>
      forall i | 0 <= i < |r.server.cart|
        ensures r.server.cart[i].amount >= 0
      {
        assert r.server.cart[i] in w.server.cart;
      }
    case CheckoutButton =>
      if GetCart !in net.failing {
        DeleteAllKeepsNonNegative(w.server, DeleteRequests(w.server.cart), net.failing);
      }
  }

  /** With every request delivered, a click keeps the client an exact
      mirror of the backend and never gives two resources the same id. */
  lemma DispatchKeepsConsistent(w: World, click: Click)
    requires Consistent(w)
    ensures Consistent(Dispatch(w, click, Network({})).world)
  {
    var net := Network({});
    var r := Dispatch(w, click, net).world;
    match click
    case AddButton(id) =>
    case SubtractButton(id) =>
    case AddToCartButton(id) =>
      match FindInventory(w.client.inventory, id) {
        case None =>
        case Some(item) =>
          if FindCart(w.client.cart, id).None? && item.quantity > 0 {
            AppendKeepsUnique(w.server.cart, CartItem(item.id, item.content, item.quantity));
          }
      }
    case DeleteButton(id) =>
      RemoveIdKeepsUnique(w.server.cart, id);
    case CheckoutButton =>
  }

  /** A click notifies the subscriber at most once, and exactly once when
      it issued requests and all of them were delivered. */
  lemma DispatchNotifiesAtMostOnce(w: World, click: Click, net: Network)
    requires w.client.onChange.Some?
    ensures Dispatch(w, click, net).world.client.onChange == w.client.onChange
    ensures |Dispatch(w, click, net).world.client.fired| - |w.client.fired| in {0, 1}
    ensures var s := Dispatch(w, click, net);
      s.requests != [] && (forall i :: 0 <= i < |s.requests| ==> s.requests[i] !in net.failing) ==>
      |s.world.client.fired| == |w.client.fired| + 1
    ensures var s := Dispatch(w, click, net);
      || s.world.client.fired == w.client.fired
      || s.world.client.fired ==
           w.client.fired + [Notification(w.client.onChange.value, s.world.client.inventory, s.world.client.cart)]
  {
  }

  /** Start-up with every request delivered, then any series of delivered
      clicks: the client ends an exact mirror of a backend with unique ids. */
  lemma {:induction false} RunKeepsConsistent(w: World, events: seq<Event>)
    requires Consistent(w)
    requires forall i :: 0 <= i < |events| ==> Reliable(events[i].net)
    ensures Consistent(Run(w, events))
    decreases |events|
  {
    if |events| > 0 {
      assert events[0].net == Network({});
      DispatchKeepsConsistent(w, events[0].click);
      var w' := Dispatch(w, events[0].click, events[0].net).world;
      forall i | 0 <= i < |events[1..]|
        ensures Reliable(events[1..][i].net)
      {
        assert events[1..][i] == events[i + 1];
      }
      RunKeepsConsistent(w', events[1..]);
    }
  }

  /** Under any network, no series of clicks makes a figure negative. */
  lemma {:induction false} RunKeepsNonNegative(w: World, events: seq<Event>)
    requires NonNegative(w)
    ensures NonNegative(Run(w, events))
    decreases |events|
  {
    if |events| > 0 {
      DispatchKeepsNonNegative(w, events[0].click, events[0].net);
      RunKeepsNonNegative(Dispatch(w, events[0].click, events[0].net).world, events[1..]);
    }
  }

  /** A backend with unique ids, loaded by `init` over a reliable network,
      stays mirrored by the client through any series of delivered clicks. */
  lemma {:induction false} SessionStaysConsistent(server: Backend, cb: Callback, events: seq<Event>)
    requires UniqueIds(InventoryIds(server.inventory)) && UniqueIds(CartIds(server.cart))
    requires forall i :: 0 <= i < |events| ==> Reliable(events[i].net)
    ensures Consistent(Run(Init(server, cb, Network({})), events))
  {
    RunKeepsConsistent(Init(server, cb, Network({})), events);
  }

  /** Unique cart ids are kept only while the client mirrors the backend: a
      POST whose re-fetch fails leaves the client's cart stale, and a second
      add-to-cart of the same item then POSTs its id again. */
  lemma StaleCartDuplicatesId()
    ensures var w := World(State([InventoryItem(1, "Apple", 5)], [], Some(Callback(0)), []),
                           Backend([InventoryItem(1, "Apple", 5)], []));
            var net := Network({GetCart});
            var w2 := Dispatch(Dispatch(w, AddToCartButton(1), net).world, AddToCartButton(1), net).world;
            && Consistent(w)
            && w2.server.cart == [CartItem(1, "Apple", 5), CartItem(1, "Apple", 5)]
            && !UniqueIds(CartIds(w2.server.cart))
  {
    var w := World(State([InventoryItem(1, "Apple", 5)], [], Some(Callback(0)), []),
                   Backend([InventoryItem(1, "Apple", 5)], []));
    var net := Network({GetCart});
    var w1 := Dispatch(w, AddToCartButton(1), net).world;
    assert w1.client.cart == [] && w1.server.cart == [CartItem(1, "Apple", 5)];
    var w2 := Dispatch(w1, AddToCartButton(1), net).world;
    assert CartIds(w2.server.cart)[0] == CartIds(w2.server.cart)[1];
  }

  /** A delivered PATCH followed by a failed re-fetch leaves the client
      showing the old quantity while the backend holds the new one. */
  lemma RefetchFailureLeavesClientStale()
    ensures var w := World(State([InventoryItem(1, "Apple", 5)], [], Some(Callback(0)), []),
                           Backend([InventoryItem(1, "Apple", 5)], []));
            Synced(w) && !Synced(Dispatch(w, AddButton(1), Network({GetInventory})).world)
  {
    var w := World(State([InventoryItem(1, "Apple", 5)], [], Some(Callback(0)), []),
                   Backend([InventoryItem(1, "Apple", 5)], []));
    var r := Dispatch(w, AddButton(1), Network({GetInventory})).world;
    assert r.server.inventory[0].quantity == 6;
  }
}

=== FILE: wrappers.dfy ===
/** The optional value used for lookups that may find nothing
    (JavaScript's `Array.prototype.find` returning `undefined`). */
module Wrappers {

  datatype Option<+T> = None | Some(value: T)
}
